=== FILE: README.md ===
# Diplobot decision engine in Dafny

This project models the decision engine of Diplobot, an automated player for Diplomacy. It covers the `Diplobot` class in `bot.py`. The bot keeps:

- its `nationality`;
- the set `owned` of territories it believes it holds;
- the ordered list `supply_centers`;
- a board graph whose nodes carry `fullname`, `supply`, `belongsto`, `score` and `strength` attributes.

Five operations act on that state, each as `bot.py` writes it:

- **World construction** (`default_game_world`, module `GameWorld`). It turns a territory-definition dictionary into an undirected simple graph: one node per territory, seeded with score 0 and strength 0, and one edge per listed fleet or army move. It also derives `owned` and `supply_centers`.
- **Board synchronisation** (`update_board`, module `BoardUpdate`). It overlays a `{owner, strength}` dictionary onto the board and keeps `owned` up to date incrementally.
- **Scoring** (`score_territories`, module `Scoring`). Each supply center whose `belongsto` attribute is the bot's nationality scores the strength of the neighbours whose `belongsto` is another nation, minus its own strength. Any other supply center scores its own strength. Scoring reads `belongsto`, not `owned`; see the misspelt attribute below.
- **Primary orders** (`next_move`, module `Orders`). For every owned territory it picks a destination among the territory and its neighbours.
- **Reinforcement** (`next_secondary_move`, module `Orders`). This is a greedy loop: pick a center, add one unit there, rescore, repeat.

The state is an immutable `Bot` value (module `BoardTypes`). `Board.edges` holds each undirected edge as both of its ordered pairs. `Board.order` lists the nodes in insertion order. Sums of strengths have a set-based reference meaning, `StrengthSums.SetSum`. The scoring computes the same sum by walking the node list, and `StrengthSums.SumOverIsSetSum` proves the two agree.

## Behaviour kept as written

These quirks are modelled as the code behaves, not as its docstrings describe it.

- **Lowest score wins.** Both `next_move` and `next_secondary_move` sort ascending and take element `[0]`, so each picks a lowest-scoring candidate (bot.py:112-118, bot.py:129-130). Python's sort is stable, so the reinforcement pick is the *first* minimal center in `supply_centers` order (`Orders.IsFirstLowest`). In `next_move` the territory itself is appended after its neighbours (bot.py:112-113), so a tie between staying and moving goes to the neighbour. The unit stays put only when every neighbour scores strictly higher, leaving aside a territory that lists itself as a move (`Orders.LowestCandidate`).
- **Misspelt attribute.** `update_board` writes the reported owner under the key `belongsnto` (bot.py:56). The `Node.belongsnto` field models that key. `belongsto`, which scoring reads, keeps its value from construction. The invariant the code does keep is `BoardUpdate.OwnedTracksReports`: `owned` follows the last reported owner. `owned` stops agreeing with `belongsto` once a report moves a territory into or out of the bot's nationality. A captured center is then in `owned` but still scored as an enemy's. See Findings.
- **Empty propagation queue.** The propagation queue is created empty (bot.py:87-90), so the breadth-first loop never runs. Every territory that is not a supply center keeps its previous score.
- **Dead `else` branch.** Every node gets a `strength` at construction (bot.py:35), and `update_board` always writes one. The branch `else: score = 0` (bot.py:85-86) is therefore never taken, and strength is a plain `int` field.
- **Simple graph.** The graph is an `nx.Graph`, not a multigraph. A pair listed as both a fleet and an army move yields one edge, and a pair listed from both ends also yields one edge.
- **Code over docstrings.** The docstrings of `bot.py` promise more than the code does, and the model follows the code. The `score_territories` docstring (bot.py:62-72) gives an owned center the size of the largest adjacent force. The code sums the strengths of every neighbour whose `belongsto` is another nation and subtracts the center's own strength (bot.py:78-82). The same docstring describes a propagation weighted by a constant factor, which never runs (see above). The `next_move` docstring (bot.py:105-108) promises triples such as `('Ter1', 'move', 'Ter2')` and support orders. The code returns `(territory, destination)` pairs, and the TODOs at bot.py:115-117 show that hold and support orders were never written.

## Model

| member | source | states |
|---|---|---|
| GameWorld.DefaultGameWorld | bot.py:23-43 | The constructed state is valid. `owned` is exactly the set of territories whose `belongsto` is the nationality. Every node carries its definition's name, supply flag and owner, with score 0 and strength 0. `supply_centers` lists each territory with `supply == 1` exactly once. The edge set is symmetric and joins `a` and `b` exactly when one of them lists the other as a move. |
| GameWorld.NodesOf | bot.py:30-35 | The board has exactly one node per defined territory, seeded from its definition with score 0 and strength 0. |
| GameWorld.OwnedOf | bot.py:30-32 | A territory is added to `owned` exactly when its definition's owner is the nationality. |
| GameWorld.CentersOf | bot.py:30-37 | `supply_centers` is duplicate-free and contains exactly the territories whose supply flag is 1. |
| GameWorld.CentersInDefinitionOrder | bot.py:30-37 | `supply_centers` lists the centers in the order of their definitions. This is the order the stable sort at bot.py:129-130 falls back on for equal scores. |
| GameWorld.EdgesOf | bot.py:38-42 | An ordered pair is an edge exactly when one end lists the other as a fleet or army move, so every listed move is present in both directions. |
| GameWorld.CentersAreSupply | bot.py:33-37 | The built list of supply centers agrees with the `supply` attributes of the built nodes. |
| GameWorld.OwnedAreNational | bot.py:31-35 | The built `owned` set agrees with the `belongsto` attributes of the built nodes. |
| GameWorld.BoardIsValid | bot.py:29-42 | Every edge of the built graph joins two defined territories, and the node list enumerates each territory once. |
| BoardUpdate.UpdateBoard | bot.py:45-57 | For each key `t` of the dictionary, `t` is in `owned` afterwards iff the reported owner is the nationality. Membership of every other territory is unchanged. Each key's strength becomes the reported strength, and the reported owner lands in `belongsnto`. `belongsto`, `score` and all other nodes are unchanged. `OwnedTracksReports` is preserved. |
| BoardUpdate.OverlayOne | bot.py:52-57 | One pass of the loop body: whatever its previous membership, the key is in `owned` afterwards exactly when the reported owner is the nationality. No other territory changes membership. The key's strength and `belongsnto` take the reported values, and every other attribute and node is unchanged. `OverlayStep` proves that the pass extends the overlay of the keys processed so far. |
| BoardUpdate.OverlayStep | bot.py:51-57 | One pass of the loop body extends the overlay of the keys processed so far by one more key. |
| BoardUpdate.OverlaidUnique | bot.py:51-57 | The result is fully determined by the dictionary, so the dictionary's iteration order does not matter. |
| BoardUpdate.OverlayIdempotent | bot.py:51-57 | Applying the same dictionary twice leaves the state that applying it once produced. |
| BoardUpdate.FreshWorldTracksReports | bot.py:30-35 | A freshly built bot satisfies `OwnedTracksReports`, because no owner has yet been reported. |
| BoardUpdate.MisspeltKeyBreaksConsistency | bot.py:52-56 | Counterexample for the as-written code: a consistent bot stops being consistent after one report. Germany holds nothing and is told it owns `ber`; afterwards `ber` is in `owned` but its `belongsto` is still Russia. |
| BoardUpdate.UpdateBoardFixed | bot.py:45-57 | Corrected version that writes the owner to `belongsto`. It has the same ownership overlay as the original and, in addition, preserves `owned == {t : belongsto(t) == nationality}`. |
| BoardUpdate.FixedOverlayKeepsConsistency | bot.py:51-57 | Under the corrected overlay, recomputing `owned` from the board agrees with the incrementally maintained set. |
| Scoring.ScoreCenters | bot.py:74-86 | After the loop over centers, each listed center's score is its seed score computed from the state before the loop. Every other node keeps its score, and no attribute other than scores changes. |
| Scoring.SeedScoreIgnoresScores | bot.py:78-84 | A seed score reads only strengths, owners and adjacency. Rescoring one center therefore cannot change another center's seed. |
| Scoring.SeedScore | bot.py:78-86 | A center whose `belongsto` is the nationality seeds with the set sum of the strengths of its neighbours whose `belongsto` is another nation, minus its own strength. Any other center seeds with its strength. |
| Scoring.ScoreTerritories | bot.py:74-100 | Each supply center whose `belongsto` is the nationality scores the strength of the neighbours whose `belongsto` is another nation, minus its own. Each other supply center scores its own strength. Membership of `owned` plays no part. Every non-center keeps its score, because the propagation queue is empty. Only scores change. |
| Scoring.ScoreTerritoriesIdempotent | bot.py:74-100 | Scoring twice yields the same state as scoring once. |
| Scoring.ExampleHeldCenter | bot.py:78-82 | Worked case: England's London has strength 2 and French neighbours of strengths 3 and 5, so it scores 6. |
| Scoring.ExampleOtherTerritories | bot.py:83-90 | Worked case: an enemy center of strength 4 scores 4, and a non-center keeps score 0. |
| StrengthSums.SumOverIsSetSum | bot.py:79-81 | Summing strengths by walking a duplicate-free node list equals the set sum over the selected neighbours. This is the `sum(... for ter in adj[center] if ...)` at bot.py:79-81. |
| Orders.FirstLowestIndex | bot.py:129-130 | The head of a stable ascending sort by score is a minimal-score element, and no earlier element has an equal or lower score. |
| Orders.NeighbourList | bot.py:112-113 | The listed neighbours of `t` are exactly the nodes adjacent to `t`. |
| Orders.StayingNeedsStrictlyBest | bot.py:112-114 | If the head of the sorted list `neighbours + [ter]` is `ter` itself, and `ter` is not its own neighbour, then every neighbour scores strictly higher than `ter`. |
| Orders.BestDestination | bot.py:112-118 | The chosen destination is the territory itself or one of its neighbours, and no such candidate scores lower. It is the territory itself only when every neighbour scores strictly higher, unless the territory lists itself as a move. |
| Orders.PairWithDestinations | bot.py:110-119 | One pair per listed territory, in order. Each pair's destination is a lowest-scoring candidate for its territory. On a tie it is a neighbour rather than the territory itself. |
| Orders.Enumerate | bot.py:111 | Iterating over the `owned` set visits each member exactly once, in an unspecified order. |
| Orders.NextMove | bot.py:102-119 | The result has exactly one pair per owned territory: no territory twice and none missing. Each pair's destination lies in `{ter} ∪ adj(ter)` and has minimal score among those candidates. A pair `(ter, ter)` appears only when every neighbour of `ter` scores strictly higher. |
| Orders.AddUnit | bot.py:132 | Placing a unit raises that center's strength by one. Every other attribute of the center, every other node, `owned`, `supply_centers`, the node order and the edges are unchanged. |
| Orders.Reinforce | bot.py:131-133 | One round raises the chosen center's strength by one, leaves all other strengths and every `belongsto` and `supply` unchanged, and keeps the bot's shape. It then rescores: every supply center's score is its seed score in the new state, and every non-center keeps its score. |
| Orders.GreedyRunExtend | bot.py:128-133 | A further round whose pick heads the sorted centers extends the recorded run of states by one. |
| Orders.AccountedExtend | bot.py:131-133 | After one more round, every strength is the original plus the number of times that territory was picked, and the total has risen by the number of picks. |
| Orders.NextSecondaryMove | bot.py:121-134 | Returns `max(units_available, 0)` territories, all supply centers. Each pick heads the ascending sort of the centers in the state at that moment. Each center's strength rises by the number of times it was picked, non-centers are unchanged, and total strength rises by exactly the number of picks. |

## Findings

| source | as written | input that shows it | evidently intended | confidence | as-written member | corrected member |
|---|---|---|---|---|---|---|
| bot.py:56 | The new owner is stored under the key `belongsnto`, so `belongsto` never changes after construction. | Nationality Germany with `owned = {}` and `ber` defined as Russian; apply `update_board({'ber': {'owner': 'Germany', 'strength': 1}})`. `ber` joins `owned`, but its `belongsto` is still Russia, so scoring treats it as an enemy center. | Store the owner under `belongsto`, so that `owned` stays equal to the territories whose `belongsto` is the nationality. | high (a one-letter typo of the key scoring reads); not executed | BoardUpdate.MisspeltKeyBreaksConsistency | BoardUpdate.UpdateBoardFixed |

Scoring and order selection take the board state as a parameter. They therefore apply unchanged to a state produced by either version of the update. The rest of the model follows the code as written.

## Left out

- `run` (bot.py:136-140) is an HTTP request to the game server. It is network I/O and is not modelled.
- Reading `board.js` (bot.py:28) is file I/O. The definitions are instead an in-memory list of entries with distinct names, in the dictionary's iteration order.
- `aggressiveness`, `defensiveness`, `server` and `port` (bot.py:10-18) are stored but never read by the engine.
- The `type` attribute of edges (bot.py:40, bot.py:42) is left out because nothing reads it. For a pair listed twice, networkx keeps the last written tag.
- The propagation loop body (bot.py:91-100) is unreachable because the queue starts empty. It also uses the float weight 0.2. Only its observable effect is modelled: non-centers keep their scores. Scores are therefore integers.
- Randomised choice among the best candidates, and hold/move/support classification, exist only as TODO comments (bot.py:115-117).
- GameWorld.DefaultGameWorld: requires every listed move to name a defined territory. With an undefined name, networkx would add a node without attributes, and a later read of it would raise a KeyError.
- BoardUpdate.UpdateBoard: requires every key to be an existing territory. With an unknown key, bot.py raises a KeyError at bot.py:56. The keys processed before it stay applied, and the unknown key has already been added to `owned` if its reported owner is the nationality. That partial update is not modelled.
- Orders.NextMove: ties between neighbours are stated as "some lowest-scoring neighbour". The source ranks neighbours in the adjacency dictionary's iteration order, which Python 2.7 leaves unspecified. Ties between a neighbour and the territory itself are modelled: the neighbour wins.
- Orders.NextMove and BoardUpdate.UpdateBoard: the iteration order of Python sets and dictionaries is unspecified. These members choose the next element arbitrarily, and their contracts hold for every order.
- Orders.NextSecondaryMove: requires at least one supply center when units are available. With none, the `[0]` at bot.py:129-130 on an empty sorted list raises an IndexError, and that error path is not modelled.
- Strength and score are unbounded integers. Python integers do not overflow.

=== FILE: board_types.dfy ===
/**
 The state of one Diplobot: its nationality, the territories it believes it
 owns, the ordered list of supply centers, and the board graph whose nodes
 carry the attributes the bot reads and writes (owner, strength, score).
 */
module BoardTypes {

  type Name = string
  type Nationality = string

  datatype Option<+T> = None | Some(value: T)

  /** One entry of the static territory-definition file. */
  datatype TerritoryDef = TerritoryDef(
    fullname: string,
    supply: int,
    belongsto: Nationality,
    fleetMoves: seq<Name>,
    armyMoves: seq<Name>)

  /** A definition file is a dictionary; its iteration order is the order of this list. */
  datatype Entry = Entry(name: Name, info: TerritoryDef)

  /**
   The attribute dictionary of a board node. `belongsnto` is the extra key
   the synchronisation step writes (a misspelling of `belongsto`); nothing
   ever reads it.
   */
  datatype Node = Node(
    fullname: string,
    supply: int,
    belongsto: Nationality,
    score: int,
    strength: int,
    belongsnto: Option<Nationality>)

  /**
   An undirected simple graph: `order` lists the nodes in insertion order,
   `edges` holds each undirected edge as both of its ordered pairs.
   */
  datatype Board = Board(order: seq<Name>, nodes: map<Name, Node>, edges: set<(Name, Name)>)

  datatype Bot = Bot(
    nationality: Nationality,
    owned: set<Name>,
    supplyCenters: seq<Name>,
    board: Board)

  /** One value of the synchronisation dictionary. */
  datatype OwnerInfo = OwnerInfo(owner: Nationality, strength: int)

  predicate Distinct<T(==)>(xs: seq<T>)
  {
    forall i, j :: 0 <= i < j < |xs| ==> xs[i] != xs[j]
  }

  /** Every edge joins two nodes, and `order` enumerates the nodes once each. */
  ghost predicate ValidBoard(b: Board)
  {
    && Distinct(b.order)
    && (forall t :: t in b.order <==> t in b.nodes)
    && (forall e :: e in b.edges ==> e.0 in b.nodes && e.1 in b.nodes)
  }

  /** Every territory the bot indexes by name is a node of its board. */
  ghost predicate ValidBot(bot: Bot)
  {
    && ValidBoard(bot.board)
    && (forall c :: c in bot.supplyCenters ==> c in bot.board.nodes)
    && bot.owned <= bot.board.nodes.Keys
  }

  ghost predicate Symmetric(edges: set<(Name, Name)>)
  {
    forall a, b :: (a, b) in edges ==> (b, a) in edges
  }

  /** The neighbours of `t`, as `board.adj[t]` enumerates them. */
  function Neighbours(b: Board, t: Name): set<Name>
  {
    set u | u in b.nodes.Keys && (t, u) in b.edges
  }

  /** The destinations `next_move` ranks for a unit in `t`: `t` itself and its neighbours. */
  function Candidates(b: Board, t: Name): set<Name>
  {
    {t} + Neighbours(b, t)
  }

  /** Ownership as the board's `belongsto` attributes record it. */
  ghost predicate OwnedConsistent(bot: Bot)
  {
    forall t :: t in bot.owned <==> t in bot.board.nodes && bot.board.nodes[t].belongsto == bot.nationality
  }

  function Count<T(==)>(xs: seq<T>, x: T): nat
  {
    if xs == [] then 0 else (if xs[0] == x then 1 else 0) + Count(xs[1..], x)
  }
}

=== FILE: board_update.dfy ===
/**
 Synchronisation of the board with the game state (`update_board`): a
 per-territory overlay of owner and strength, with `owned` maintained
 incrementally. The owner is written under the misspelt attribute
 `belongsnto`, so the `belongsto` attribute that scoring reads keeps its
 construction-time value.
 */
module BoardUpdate {
  import opened BoardTypes
  import GameWorld

  /** Everything but the nodes' attributes and `owned` is left alone. */
  ghost predicate SameShape(bot: Bot, r: Bot)
  {
    && r.nationality == bot.nationality
    && r.supplyCenters == bot.supplyCenters
    && r.board.order == bot.board.order
    && r.board.edges == bot.board.edges
    && r.board.nodes.Keys == bot.board.nodes.Keys
  }

  /** `owned` after an overlay: decided by the reported owner for reported territories, unchanged elsewhere. */
  ghost predicate OwnedOverlaid(bot: Bot, ownersDict: map<Name, OwnerInfo>, r: Bot)
  {
    && (forall t :: t in ownersDict ==> (t in r.owned <==> ownersDict[t].owner == bot.nationality))
    && (forall t :: t !in ownersDict ==> (t in r.owned <==> t in bot.owned))
  }

  /** The relation between the state before and after `update_board(ownersDict)`, as bot.py behaves. */
  ghost predicate Overlaid(bot: Bot, ownersDict: map<Name, OwnerInfo>, r: Bot)
  {
    && SameShape(bot, r)
    && OwnedOverlaid(bot, ownersDict, r)
    && (forall t :: t in r.board.nodes ==>
          var n, m := bot.board.nodes[t], r.board.nodes[t];
          && m.fullname == n.fullname
          && m.supply == n.supply
          && m.belongsto == n.belongsto
          && m.score == n.score
          && (t in ownersDict ==> m.strength == ownersDict[t].strength && m.belongsnto == Some(ownersDict[t].owner))
          && (t !in ownersDict ==> m.strength == n.strength && m.belongsnto == n.belongsnto))
  }

  /**
   The invariant bot.py does keep: a territory is owned exactly when the
   owner last reported for it (or, if none was reported, its owner at
   construction) is the bot's nationality.
   */
  ghost predicate OwnedTracksReports(bot: Bot)
  {
    forall t :: t in bot.board.nodes ==>
      (t in bot.owned <==>
        match bot.board.nodes[t].belongsnto
        case Some(o) => o == bot.nationality
        case None => bot.board.nodes[t].belongsto == bot.nationality)
  }

  /** A freshly built board satisfies the invariant: no owner has been reported yet. */
  lemma FreshWorldTracksReports(nationality: Nationality, defs: seq<Entry>)
    requires GameWorld.WellFormedDefs(defs)
    ensures OwnedTracksReports(GameWorld.DefaultGameWorld(nationality, defs))
  {
    var bot := GameWorld.DefaultGameWorld(nationality, defs);
    forall t | t in bot.board.nodes ensures bot.board.nodes[t].belongsnto == None {
      var i :| 0 <= i < |defs| && defs[i].name == t;
    }
  }

  /**
   One pass of the loop body for territory `t`, as written: whatever `t`'s
   previous membership, it is owned afterwards exactly when the reported
   owner is the nationality; the owner goes to `belongsnto`.
   */
  function OverlayOne(bot: Bot, t: Name, info: OwnerInfo): (r: Bot)
    requires t in bot.board.nodes
    ensures SameShape(bot, r)
    ensures t in r.owned <==> info.owner == bot.nationality
    ensures forall u :: u != t ==> (u in r.owned <==> u in bot.owned)
    ensures r.board.nodes[t] == bot.board.nodes[t].(strength := info.strength, belongsnto := Some(info.owner))
    ensures forall u :: u in r.board.nodes && u != t ==> r.board.nodes[u] == bot.board.nodes[u]
  {
    var owned :=
      if t in bot.owned && info.owner != bot.nationality then bot.owned - {t}
      else if info.owner == bot.nationality then bot.owned + {t}
      else bot.owned;
    var n := bot.board.nodes[t];
    var nodes := bot.board.nodes[t := n.(belongsnto := Some(info.owner), strength := info.strength)];
    bot.(owned := owned, board := bot.board.(nodes := nodes))
  }

  /** Processing one more key extends the overlay by that key. */
  lemma OverlayStep(bot: Bot, done: map<Name, OwnerInfo>, cur: Bot, t: Name, info: OwnerInfo)
    requires Overlaid(bot, done, cur) && t !in done && t in cur.board.nodes
    ensures Overlaid(bot, done[t := info], OverlayOne(cur, t, info))
  {
  }

  lemma OneMoreKey(m: map<Name, OwnerInfo>, pending: set<Name>, t: Name)
    requires t in pending && t in m
    ensures t !in m - pending
    ensures (m - pending)[t := m[t]] == m - (pending - {t})
  {
  }

  /**
   `update_board`: the dictionary is walked in an unspecified order; every key
   must name an existing territory (bot.py raises a KeyError otherwise).
   */
  method UpdateBoard(bot: Bot, ownersDict: map<Name, OwnerInfo>) returns (r: Bot)
    requires ValidBot(bot)
    requires ownersDict.Keys <= bot.board.nodes.Keys
    ensures ValidBot(r)
    ensures Overlaid(bot, ownersDict, r)
    ensures OwnedTracksReports(bot) ==> OwnedTracksReports(r)
  {
    r := bot;
    var pending := ownersDict.Keys;
    while pending != {}
      invariant pending <= ownersDict.Keys
      invariant Overlaid(bot, ownersDict - pending, r)
      decreases pending
    {
      var t :| t in pending;
      OverlayStep(bot, ownersDict - pending, r, t, ownersDict[t]);
      OneMoreKey(ownersDict, pending, t);
      r := OverlayOne(r, t, ownersDict[t]);
      pending := pending - {t};
    }
    assert ownersDict - {} == ownersDict;
    assert r.owned <= r.board.nodes.Keys by {
      assert forall t :: t in r.owned ==> t in ownersDict || t in bot.owned;
    }
  }

  /** The overlay determines the resulting state: the dictionary's iteration order does not matter. */
  lemma {:induction false} OverlaidUnique(bot: Bot, ownersDict: map<Name, OwnerInfo>, r1: Bot, r2: Bot)
    requires Overlaid(bot, ownersDict, r1) && Overlaid(bot, ownersDict, r2)
    ensures r1 == r2
  {
    assert r1.owned == r2.owned;
    assert r1.board.nodes == r2.board.nodes by {
      forall t | t in r1.board.nodes ensures r1.board.nodes[t] == r2.board.nodes[t] {
      }
    }
  }

  /** Applying the same dictionary twice has the effect of applying it once. */
  lemma {:induction false} OverlayIdempotent(bot: Bot, ownersDict: map<Name, OwnerInfo>, r1: Bot, r2: Bot)
    requires Overlaid(bot, ownersDict, r1) && Overlaid(r1, ownersDict, r2)
    ensures r2 == r1
  {
    assert r1.owned == r2.owned;
    assert r1.board.nodes == r2.board.nodes by {
      forall t | t in r1.board.nodes ensures r1.board.nodes[t] == r2.board.nodes[t] {
      }
    }
  }

  /**
   Because the owner lands in `belongsnto`, `owned` and the `belongsto`
   attributes drift apart after the first report of a captured territory:
   Germany, holding nothing, is told it now owns `ber`.
   */
  lemma MisspeltKeyBreaksConsistency(r: Bot)
    requires Overlaid(MisspeltExampleBot(), map["ber" := OwnerInfo("Germany", 1)], r)
    ensures OwnedConsistent(MisspeltExampleBot())
    ensures !OwnedConsistent(r)
  {
    assert "ber" in r.owned;
    assert r.board.nodes["ber"].belongsto == "Russia";
  }

  function MisspeltExampleBot(): Bot
  {
    Bot("Germany", {}, ["ber"],
        Board(["ber"], map["ber" := Node("Berlin", 1, "Russia", 0, 0, None)], {}))
  }

  /** The overlay bot.py evidently intends: the reported owner replaces `belongsto`. */
  ghost predicate OverlaidFixed(bot: Bot, ownersDict: map<Name, OwnerInfo>, r: Bot)
  {
    && SameShape(bot, r)
    && OwnedOverlaid(bot, ownersDict, r)
    && (forall t :: t in r.board.nodes ==>
          var n, m := bot.board.nodes[t], r.board.nodes[t];
          && m.fullname == n.fullname
          && m.supply == n.supply
          && m.score == n.score
          && m.belongsnto == n.belongsnto
          && (t in ownersDict ==> m.strength == ownersDict[t].strength && m.belongsto == ownersDict[t].owner)
          && (t !in ownersDict ==> m.strength == n.strength && m.belongsto == n.belongsto))
  }

  /** One pass of the corrected loop body: the owner goes to `belongsto`. */
  function OverlayOneFixed(bot: Bot, t: Name, info: OwnerInfo): Bot
    requires t in bot.board.nodes
  {
    var owned :=
      if t in bot.owned && info.owner != bot.nationality then bot.owned - {t}
      else if info.owner == bot.nationality then bot.owned + {t}
      else bot.owned;
    var n := bot.board.nodes[t];
    var nodes := bot.board.nodes[t := n.(belongsto := info.owner, strength := info.strength)];
    bot.(owned := owned, board := bot.board.(nodes := nodes))
  }

  lemma OverlayStepFixed(bot: Bot, done: map<Name, OwnerInfo>, cur: Bot, t: Name, info: OwnerInfo)
    requires OverlaidFixed(bot, done, cur) && t !in done && t in cur.board.nodes
    ensures OverlaidFixed(bot, done[t := info], OverlayOneFixed(cur, t, info))
  {
  }

  /** With `belongsto` overwritten, recomputing ownership from the board agrees with the maintained set. */
  lemma {:induction false} FixedOverlayKeepsConsistency(bot: Bot, ownersDict: map<Name, OwnerInfo>, r: Bot)
    requires ownersDict.Keys <= bot.board.nodes.Keys
    requires OverlaidFixed(bot, ownersDict, r) && OwnedConsistent(bot)
    ensures OwnedConsistent(r)
  {
    forall t ensures t in r.owned <==> t in r.board.nodes && r.board.nodes[t].belongsto == r.nationality {
      if t in ownersDict {
        assert t in r.board.nodes;
      }
    }
  }

  /**
   `update_board` with the attribute name corrected to `belongsto`: the
   incrementally maintained `owned` then always equals the set recomputed
   from the board.
   */
  method UpdateBoardFixed(bot: Bot, ownersDict: map<Name, OwnerInfo>) returns (r: Bot)
    requires ValidBot(bot)
    requires ownersDict.Keys <= bot.board.nodes.Keys
    ensures ValidBot(r)
    ensures OverlaidFixed(bot, ownersDict, r)
    ensures OwnedConsistent(bot) ==> OwnedConsistent(r)
  {
    r := bot;
    var pending := ownersDict.Keys;
    while pending != {}
      invariant pending <= ownersDict.Keys
      invariant OverlaidFixed(bot, ownersDict - pending, r)
      decreases pending
    {
      var t :| t in pending;
      OverlayStepFixed(bot, ownersDict - pending, r, t, ownersDict[t]);
      OneMoreKey(ownersDict, pending, t);
      r := OverlayOneFixed(r, t, ownersDict[t]);
      pending := pending - {t};
    }
    assert ownersDict - {} == ownersDict;
    assert r.owned <= r.board.nodes.Keys by {
      assert forall t :: t in r.owned ==> t in ownersDict || t in bot.owned;
    }
    if OwnedConsistent(bot) {
      FixedOverlayKeepsConsistency(bot, ownersDict, r);
    }
  }
}

=== FILE: game_world.dfy ===
/**
 Construction of the default board from the territory-definition file: one
 node per territory (score and strength seeded with zero), one undirected
 edge per listed fleet or army move, the `owned` set and the ordered list of
 supply centers.
 */
module GameWorld {
  import opened BoardTypes

  /** Fleet moves are added to the graph before army moves; both become plain edges. */
  function Moves(info: TerritoryDef): seq<Name>
  {
    info.fleetMoves + info.armyMoves
  }

  ghost predicate Defines(defs: seq<Entry>, t: Name)
  {
    exists i :: 0 <= i < |defs| && defs[i].name == t
  }

  /** Territory `a`'s entry lists `b` as a fleet or army move. */
  ghost predicate Lists(defs: seq<Entry>, a: Name, b: Name)
  {
    exists i :: 0 <= i < |defs| && defs[i].name == a && b in Moves(defs[i].info)
  }

  ghost predicate DistinctNames(defs: seq<Entry>)
  {
    forall i, j :: 0 <= i < j < |defs| ==> defs[i].name != defs[j].name
  }

  /**
   The keys of a dictionary are distinct, and every move names a defined
   territory (otherwise the graph would grow a node without attributes).
   */
  ghost predicate WellFormedDefs(defs: seq<Entry>)
  {
    && DistinctNames(defs)
    && (forall a, b :: Lists(defs, a, b) ==> Defines(defs, b))
  }

  /** Dropping the last entry keeps the names distinct and removes exactly the last name. */
  lemma DropLast(defs: seq<Entry>)
    requires |defs| > 0 && DistinctNames(defs)
    ensures DistinctNames(defs[..|defs| - 1])
    ensures forall i :: 0 <= i < |defs| - 1 ==> defs[..|defs| - 1][i] == defs[i]
    ensures !Defines(defs[..|defs| - 1], defs[|defs| - 1].name)
    ensures forall t :: Defines(defs, t) <==> Defines(defs[..|defs| - 1], t) || t == defs[|defs| - 1].name
  {
    var pre, last := defs[..|defs| - 1], defs[|defs| - 1];
    forall t | Defines(defs, t) ensures Defines(pre, t) || t == last.name {
      var i :| 0 <= i < |defs| && defs[i].name == t;
      if i < |pre| {
        assert pre[i].name == t;
      }
    }
    forall t | Defines(pre, t) ensures Defines(defs, t) {
      var i :| 0 <= i < |pre| && pre[i].name == t;
      assert defs[i].name == t;
    }
    assert defs[|defs| - 1].name == last.name;
  }

  function SeedNode(info: TerritoryDef): Node
  {
    Node(info.fullname, info.supply, info.belongsto, 0, 0, None)
  }

  function NamesOf(defs: seq<Entry>): (r: seq<Name>)
    ensures |r| == |defs|
    ensures forall i :: 0 <= i < |defs| ==> r[i] == defs[i].name
  {
    if defs == [] then [] else NamesOf(defs[..|defs| - 1]) + [defs[|defs| - 1].name]
  }

  /** The nodes added by the first loop, one per entry. */
  function NodesOf(defs: seq<Entry>): (r: map<Name, Node>)
    requires DistinctNames(defs)
    ensures forall t :: t in r <==> Defines(defs, t)
    ensures forall i :: 0 <= i < |defs| ==> defs[i].name in r && r[defs[i].name] == SeedNode(defs[i].info)
  {
    if defs == [] then map[]
    else
      var last := defs[|defs| - 1];
      DropLast(defs);
      NodesOf(defs[..|defs| - 1])[last.name := SeedNode(last.info)]
  }

  /** The territories the first loop adds to `owned`. */
  function OwnedOf(nationality: Nationality, defs: seq<Entry>): (r: set<Name>)
    ensures forall t :: t in r <==> exists i :: 0 <= i < |defs| && defs[i].name == t && defs[i].info.belongsto == nationality
  {
    if defs == [] then {}
    else
      var last := defs[|defs| - 1];
      OwnedOf(nationality, defs[..|defs| - 1]) + (if last.info.belongsto == nationality then {last.name} else {})
  }

  /** The supply centers the first loop appends, in definition order. */
  function CentersOf(defs: seq<Entry>): (r: seq<Name>)
    requires DistinctNames(defs)
    ensures Distinct(r)
    ensures forall t :: t in r <==> exists i :: 0 <= i < |defs| && defs[i].name == t && defs[i].info.supply == 1
  {
    if defs == [] then []
    else
      var last := defs[|defs| - 1];
      DropLast(defs);
      var prefix := CentersOf(defs[..|defs| - 1]);
      assert last.name !in prefix by {
        assert forall t :: t in prefix ==> Defines(defs[..|defs| - 1], t);
      }
      prefix + (if last.info.supply == 1 then [last.name] else [])
  }

  /** The centers keep the order of their definitions, which the stable sort of the reinforcement loop breaks ties by. */
  lemma {:induction false} CentersInDefinitionOrder(defs: seq<Entry>)
    requires DistinctNames(defs)
    ensures forall i, j, p, q ::
              && 0 <= i < j < |CentersOf(defs)| && 0 <= p < |defs| && 0 <= q < |defs|
              && defs[p].name == CentersOf(defs)[i] && defs[q].name == CentersOf(defs)[j]
              ==> p < q
  {
    if defs != [] {
      var n := |defs|;
      var pre, last := defs[..n - 1], defs[n - 1];
      DropLast(defs);
      CentersInDefinitionOrder(pre);
      var cs, r := CentersOf(pre), CentersOf(defs);
      assert r == cs + (if last.info.supply == 1 then [last.name] else []);
      assert forall t :: t in cs ==> Defines(pre, t);
      forall i, j, p, q |
        && 0 <= i < j < |r| && 0 <= p < n && 0 <= q < n
        && defs[p].name == r[i] && defs[q].name == r[j]
        ensures p < q
      {
        assert r[i] == cs[i] && r[i] != last.name;
        assert p < n - 1 && pre[p] == defs[p];
        if j < |cs| {
          assert r[j] == cs[j] && r[j] != last.name;
          assert q < n - 1 && pre[q] == defs[q];
        } else {
          assert r[j] == last.name;
        }
      }
    }
  }

  /** Both orientations of every move listed in one entry. */
  function EntryEdges(e: Entry): set<(Name, Name)>
  {
    (set a | a in Moves(e.info) :: (e.name, a)) + (set a | a in Moves(e.info) :: (a, e.name))
  }

  /** The edges added by the second loop. */
  function EdgesOf(defs: seq<Entry>): (r: set<(Name, Name)>)
    ensures forall a, b :: (a, b) in r <==> Lists(defs, a, b) || Lists(defs, b, a)
  {
    if defs == [] then {}
    else
      var last := defs[|defs| - 1];
      var prefix := defs[..|defs| - 1];
      var r := EdgesOf(prefix) + EntryEdges(last);
      assert forall a, b :: Lists(defs, a, b) <==> Lists(prefix, a, b) || (a == last.name && b in Moves(last.info)) by {
        forall a, b | Lists(defs, a, b) ensures Lists(prefix, a, b) || (a == last.name && b in Moves(last.info)) {
          var i :| 0 <= i < |defs| && defs[i].name == a && b in Moves(defs[i].info);
          if i < |defs| - 1 {
            assert prefix[i] == defs[i];
          }
        }
        forall a, b | Lists(prefix, a, b) ensures Lists(defs, a, b) {
          var i :| 0 <= i < |prefix| && prefix[i].name == a && b in Moves(prefix[i].info);
          assert defs[i] == prefix[i];
        }
        forall a, b | a == last.name && b in Moves(last.info) ensures Lists(defs, a, b) {
          assert defs[|defs| - 1] == last;
        }
      }
      r
  }

  lemma CentersAreSupply(defs: seq<Entry>)
    requires DistinctNames(defs)
    ensures forall t :: t in CentersOf(defs) <==> t in NodesOf(defs) && NodesOf(defs)[t].supply == 1
  {
    var cs, nodes := CentersOf(defs), NodesOf(defs);
    forall t ensures t in cs <==> t in nodes && nodes[t].supply == 1 {
      if t in nodes {
        var i :| 0 <= i < |defs| && defs[i].name == t;
        assert nodes[t] == SeedNode(defs[i].info);
        assert t in cs <==> defs[i].info.supply == 1;
      }
    }
  }

  lemma OwnedAreNational(nationality: Nationality, defs: seq<Entry>)
    requires DistinctNames(defs)
    ensures forall t :: t in OwnedOf(nationality, defs) <==> t in NodesOf(defs) && NodesOf(defs)[t].belongsto == nationality
  {
    var owned, nodes := OwnedOf(nationality, defs), NodesOf(defs);
    forall t ensures t in owned <==> t in nodes && nodes[t].belongsto == nationality {
      if t in nodes {
        var i :| 0 <= i < |defs| && defs[i].name == t;
        assert nodes[t] == SeedNode(defs[i].info);
        assert t in owned <==> defs[i].info.belongsto == nationality;
      }
    }
  }

  lemma BoardIsValid(defs: seq<Entry>)
    requires WellFormedDefs(defs)
    ensures ValidBoard(Board(NamesOf(defs), NodesOf(defs), EdgesOf(defs)))
  {
    var nodes, order, edges := NodesOf(defs), NamesOf(defs), EdgesOf(defs);
    assert Distinct(order);
    forall t | t in nodes ensures t in order {
      var i :| 0 <= i < |defs| && defs[i].name == t;
      assert order[i] == t;
    }
    forall e | e in edges ensures e.0 in nodes && e.1 in nodes {
      assert Lists(defs, e.0, e.1) || Lists(defs, e.1, e.0);
    }
  }

  /** `default_game_world` together with the part of the constructor that calls it. */
  function DefaultGameWorld(nationality: Nationality, defs: seq<Entry>): (bot: Bot)
    requires WellFormedDefs(defs)
    ensures bot.nationality == nationality
    ensures ValidBot(bot)
    ensures OwnedConsistent(bot)
    ensures forall t :: t in bot.owned <==> exists i :: 0 <= i < |defs| && defs[i].name == t && defs[i].info.belongsto == nationality
    ensures forall t :: t in bot.board.nodes <==> Defines(defs, t)
    ensures forall i :: 0 <= i < |defs| ==> defs[i].name in bot.board.nodes && bot.board.nodes[defs[i].name] == SeedNode(defs[i].info)
    ensures forall t :: t in bot.board.nodes ==> bot.board.nodes[t].score == 0 && bot.board.nodes[t].strength == 0
    ensures Distinct(bot.supplyCenters)
    ensures forall t :: t in bot.supplyCenters <==> t in bot.board.nodes && bot.board.nodes[t].supply == 1
    ensures Symmetric(bot.board.edges)
    ensures forall a, b :: (a, b) in bot.board.edges <==> Lists(defs, a, b) || Lists(defs, b, a)
  {
    BoardIsValid(defs);
    CentersAreSupply(defs);
    OwnedAreNational(nationality, defs);
    Bot(nationality, OwnedOf(nationality, defs), CentersOf(defs), Board(NamesOf(defs), NodesOf(defs), EdgesOf(defs)))
  }
}

=== FILE: orders.dfy ===
/**
 Order selection. Both `next_move` and `next_secondary_move` sort their
 candidates by ascending score and take the head of the sorted list, so each
 picks a LOWEST-scoring candidate; Python's sort is stable, so among equal
 scores the earliest candidate in the list wins.
 */
module Orders {
  import opened BoardTypes
  import opened StrengthSums
  import opened Scoring

  /** `k` is where a stable ascending sort by score puts `xs`'s head: the first minimal index. */
  ghost predicate IsFirstLowest(b: Board, xs: seq<Name>, k: int)
  {
    && (forall t :: t in xs ==> t in b.nodes)
    && 0 <= k < |xs|
    && (forall j :: 0 <= j < |xs| ==> b.nodes[xs[k]].score <= b.nodes[xs[j]].score)
    && (forall j :: 0 <= j < k ==> b.nodes[xs[j]].score > b.nodes[xs[k]].score)
  }

  /** The head of `sorted(xs, key=score)`, as an index into `xs`. */
  function FirstLowestIndex(b: Board, xs: seq<Name>): (k: nat)
    requires |xs| > 0
    requires forall t :: t in xs ==> t in b.nodes
    ensures IsFirstLowest(b, xs, k)
  {
    if |xs| == 1 then 0
    else
      var k := FirstLowestIndex(b, xs[1..]) + 1;
      assert xs[k] == xs[1..][k - 1];
      if b.nodes[xs[0]].score <= b.nodes[xs[k]].score then 0 else k
  }

  /** The neighbours of `t` in the order `xs` lists them. */
  function NeighbourList(xs: seq<Name>, edges: set<(Name, Name)>, t: Name): (r: seq<Name>)
    ensures forall u :: u in r <==> u in xs && (t, u) in edges
  {
    if xs == [] then []
    else (if (t, xs[0]) in edges then [xs[0]] else []) + NeighbourList(xs[1..], edges, t)
  }

  /**
   `d` is a candidate destination for the unit in `t` and no candidate scores
   lower. Because `t` is appended after its neighbours and the sort is stable,
   a tie between `t` and a neighbour goes to the neighbour: the unit stays in
   `t` (without a self-loop) only when every neighbour scores strictly higher.
   */
  ghost predicate LowestCandidate(b: Board, t: Name, d: Name)
  {
    && Candidates(b, t) <= b.nodes.Keys
    && d in Candidates(b, t)
    && (forall u :: u in Candidates(b, t) ==> b.nodes[d].score <= b.nodes[u].score)
    && (d == t && (t, t) !in b.edges ==> forall u :: u in Neighbours(b, t) ==> b.nodes[u].score > b.nodes[t].score)
  }

  /** The head of `sorted(nl + [ter])` is `ter` itself only if every listed neighbour scores strictly higher. */
  lemma {:induction false} StayingNeedsStrictlyBest(b: Board, ter: Name, nl: seq<Name>, k: nat)
    requires ter !in nl && IsFirstLowest(b, nl + [ter], k) && (nl + [ter])[k] == ter
    ensures forall u :: u in nl ==> b.nodes[u].score > b.nodes[ter].score
  {
    var possible := nl + [ter];
    assert k == |nl|;
    forall u | u in nl ensures b.nodes[u].score > b.nodes[ter].score {
      var j :| 0 <= j < |nl| && nl[j] == u;
      assert possible[j] == u;
    }
  }

  /** The head of `sorted(adj(ter) + [ter], key=score)`. */
  function BestDestination(b: Board, ter: Name): (d: Name)
    requires ValidBoard(b) && ter in b.nodes
    ensures LowestCandidate(b, ter, d)
  {
    var nl := NeighbourList(b.order, b.edges, ter);
    var possible := nl + [ter];
    assert forall u :: u in possible <==> u in Candidates(b, ter);
    var k := FirstLowestIndex(b, possible);
    if possible[k] == ter && ter !in nl then
      StayingNeedsStrictlyBest(b, ter, nl, k);
      possible[k]
    else
      possible[k]
  }

  /** The elements of `s`, each once, in the unspecified order a Python set iterates them. */
  method Enumerate(s: set<Name>) returns (xs: seq<Name>)
    ensures Distinct(xs)
    ensures forall t :: t in xs <==> t in s
    ensures |xs| == |s|
  {
    xs := [];
    var pending := s;
    while pending != {}
      invariant pending <= s
      invariant Distinct(xs)
      invariant forall t :: t in xs <==> t in s && t !in pending
      invariant |xs| + |pending| == |s|
      decreases pending
    {
      var t :| t in pending;
      xs := xs + [t];
      pending := pending - {t};
    }
  }

  /** The order list built from the territories `ters`, in that order. */
  function PairWithDestinations(b: Board, ters: seq<Name>): (orders: seq<(Name, Name)>)
    requires ValidBoard(b)
    requires forall t :: t in ters ==> t in b.nodes
    ensures |orders| == |ters|
    ensures forall i :: 0 <= i < |ters| ==> orders[i].0 == ters[i] && LowestCandidate(b, ters[i], orders[i].1)
  {
    seq(|ters|, i requires 0 <= i < |ters| => (ters[i], BestDestination(b, ters[i])))
  }

  /**
   `next_move`: one (territory, destination) pair per owned territory, in an
   unspecified order, the destination being a lowest-scoring member of the
   territory and its neighbours.
   */
  method NextMove(bot: Bot) returns (orders: seq<(Name, Name)>)
    requires ValidBot(bot)
    ensures |orders| == |bot.owned|
    ensures forall i :: 0 <= i < |orders| ==> orders[i].0 in bot.owned
    ensures forall i, j :: 0 <= i < j < |orders| ==> orders[i].0 != orders[j].0
    ensures forall t :: t in bot.owned ==> exists i :: 0 <= i < |orders| && orders[i].0 == t
    ensures forall i :: 0 <= i < |orders| ==> LowestCandidate(bot.board, orders[i].0, orders[i].1)
  {
    var ters := Enumerate(bot.owned);
    orders := PairWithDestinations(bot.board, ters);
    forall t | t in bot.owned ensures exists i :: 0 <= i < |orders| && orders[i].0 == t {
      var i :| 0 <= i < |ters| && ters[i] == t;
      assert orders[i].0 == t;
    }
  }

  /** One placed reinforcement: the center's strength goes up by one. */
  function AddUnit(bot: Bot, c: Name): (r: Bot)
    requires c in bot.board.nodes
    ensures SameFrame(bot, r)
    ensures r.board.nodes[c] == bot.board.nodes[c].(strength := bot.board.nodes[c].strength + 1)
    ensures forall t :: t in r.board.nodes && t != c ==> r.board.nodes[t] == bot.board.nodes[t]
  {
    var n := bot.board.nodes[c];
    bot.(board := bot.board.(nodes := bot.board.nodes[c := n.(strength := n.strength + 1)]))
  }

  /** One round of the greedy loop: place a unit in `c`, then rescore the board. */
  function Reinforce(bot: Bot, c: Name): (r: Bot)
    requires ValidBot(bot) && c in bot.board.nodes
    ensures ValidBot(r)
    ensures r.nationality == bot.nationality && r.owned == bot.owned && r.supplyCenters == bot.supplyCenters
    ensures r.board.order == bot.board.order && r.board.edges == bot.board.edges
    ensures r.board.nodes.Keys == bot.board.nodes.Keys
    ensures r.board.nodes[c].strength == bot.board.nodes[c].strength + 1
    ensures forall t :: t in r.board.nodes && t != c ==> r.board.nodes[t].strength == bot.board.nodes[t].strength
    ensures forall t :: t in r.board.nodes ==>
              r.board.nodes[t].belongsto == bot.board.nodes[t].belongsto && r.board.nodes[t].supply == bot.board.nodes[t].supply
    ensures forall x :: x in r.supplyCenters ==> r.board.nodes[x].score == SeedScore(r, x)
    ensures forall t :: t in r.board.nodes && t !in r.supplyCenters ==> r.board.nodes[t].score == bot.board.nodes[t].score
  {
    SeedScoreIgnoresScores(AddUnit(bot, c), ScoreTerritories(AddUnit(bot, c)));
    ScoreTerritories(AddUnit(bot, c))
  }

  ghost function TotalStrength(b: Board): int
  {
    SetSum(b.nodes, b.nodes.Keys)
  }

  lemma {:induction false} CountAppend<T>(xs: seq<T>, y: T, x: T)
    ensures Count(xs + [y], x) == Count(xs, x) + (if y == x then 1 else 0)
  {
    if xs != [] {
      assert (xs + [y])[1..] == xs[1..] + [y];
      CountAppend(xs[1..], y, x);
    }
  }

  /** `c` is the head of `sorted(supply_centers, key=score)` in state `bot`. */
  ghost predicate SortsFirst(bot: Bot, c: Name)
  {
    exists k :: IsFirstLowest(bot.board, bot.supplyCenters, k) && bot.supplyCenters[k] == c
  }

  /** `r` can differ from `bot` only in the attributes of its nodes. */
  ghost predicate SameFrame(bot: Bot, r: Bot)
  {
    && r.nationality == bot.nationality
    && r.owned == bot.owned
    && r.supplyCenters == bot.supplyCenters
    && r.board.order == bot.board.order
    && r.board.edges == bot.board.edges
    && r.board.nodes.Keys == bot.board.nodes.Keys
  }

  /**
   `history[i]` is the state in which the `i`-th reinforcement was chosen;
   each choice is the head of the sorted centers, and each state follows
   from the previous one by one round.
   */
  ghost predicate GreedyRun(bot: Bot, picks: seq<Name>, history: seq<Bot>)
  {
    && |history| == |picks| + 1
    && history[0] == bot
    && (forall i :: 0 <= i < |history| ==> ValidBot(history[i]))
    && (forall i :: 0 <= i < |picks| ==>
          && picks[i] in history[i].board.nodes
          && SortsFirst(history[i], picks[i])
          && history[i + 1] == Reinforce(history[i], picks[i]))
  }

  lemma GreedyRunExtend(bot: Bot, picks: seq<Name>, history: seq<Bot>, c: Name)
    requires GreedyRun(bot, picks, history)
    requires c in history[|picks|].board.nodes && SortsFirst(history[|picks|], c)
    ensures GreedyRun(bot, picks + [c], history + [Reinforce(history[|picks|], c)])
  {
    var last := history[|picks|];
    var next := Reinforce(last, c);
    var picks', history' := picks + [c], history + [next];
    forall i | 0 <= i < |history'|
      ensures ValidBot(history'[i])
    {
      if i < |history| {
        assert history'[i] == history[i];
      }
    }
    forall i | 0 <= i < |picks'|
      ensures picks'[i] in history'[i].board.nodes && SortsFirst(history'[i], picks'[i])
      ensures history'[i + 1] == Reinforce(history'[i], picks'[i])
    {
      if i < |picks| {
        assert picks'[i] == picks[i] && history'[i] == history[i] && history'[i + 1] == history[i + 1];
      } else {
        assert picks'[i] == c && history'[i] == last && history'[i + 1] == next;
      }
    }
  }

  /** The strengths of `after` are those of `bot` plus one per pick; the total rose by the number of picks. */
  ghost predicate Accounted(bot: Bot, picks: seq<Name>, after: Bot)
  {
    && SameFrame(bot, after)
    && (forall t :: t in after.board.nodes ==>
          after.board.nodes[t].strength == bot.board.nodes[t].strength + Count(picks, t))
    && TotalStrength(after.board) == TotalStrength(bot.board) + |picks|
  }

  lemma AccountedExtend(bot: Bot, picks: seq<Name>, after: Bot, c: Name)
    requires ValidBot(after) && c in after.board.nodes
    requires Accounted(bot, picks, after)
    ensures Accounted(bot, picks + [c], Reinforce(after, c))
  {
    var next := Reinforce(after, c);
    forall t | t in next.board.nodes
      ensures next.board.nodes[t].strength == bot.board.nodes[t].strength + Count(picks + [c], t)
    {
      CountAppend(picks, c, t);
    }
    SetSumBump(after.board.nodes, next.board.nodes, after.board.nodes.Keys, c, 1);
  }

  /**
   `next_secondary_move(units_available)`: `units_available` rounds of
   picking the supply center a stable ascending sort by score puts first,
   adding one unit there and rescoring. `history` holds the state before
   each round and the final state.
   */
  method NextSecondaryMove(bot: Bot, unitsAvailable: int) returns (toReinforce: seq<Name>, after: Bot, ghost history: seq<Bot>)
    requires ValidBot(bot)
    requires unitsAvailable > 0 ==> |bot.supplyCenters| > 0
    ensures |toReinforce| == (if unitsAvailable > 0 then unitsAvailable else 0)
    ensures forall t :: t in toReinforce ==> t in bot.supplyCenters
    ensures GreedyRun(bot, toReinforce, history) && history[|toReinforce|] == after
    ensures ValidBot(after) && SameFrame(bot, after)
    ensures forall t :: t in after.board.nodes ==>
              after.board.nodes[t].strength == bot.board.nodes[t].strength + Count(toReinforce, t)
    ensures TotalStrength(after.board) == TotalStrength(bot.board) + |toReinforce|
  {
    toReinforce := [];
    after := bot;
    history := [bot];
    var i := 0;
    while i < unitsAvailable
      invariant 0 <= i <= (if unitsAvailable > 0 then unitsAvailable else 0)
      invariant |toReinforce| == i
      invariant forall t :: t in toReinforce ==> t in bot.supplyCenters
      invariant GreedyRun(bot, toReinforce, history) && history[|toReinforce|] == after
      invariant ValidBot(after)
      invariant Accounted(bot, toReinforce, after)
      decreases unitsAvailable - i
    {
      var k := FirstLowestIndex(after.board, after.supplyCenters);
      var ter := after.supplyCenters[k];
      GreedyRunExtend(bot, toReinforce, history, ter);
      AccountedExtend(bot, toReinforce, after, ter);
      toReinforce := toReinforce + [ter];
      after := Reinforce(after, ter);
      history := history + [after];
      i := i + 1;
    }
  }
}

=== FILE: scoring.dfy ===
/**
 `score_territories`: the seed phase over the supply centers. The
 propagation phase starts from an empty queue, so its loop never runs and
 every territory that is not a supply center keeps its score.
 */
module Scoring {
  import opened BoardTypes
  import opened StrengthSums

  /** The neighbours of `c` whose `belongsto` attribute names another nation. */
  function Threats(bot: Bot, c: Name): set<Name>
  {
    set u | u in bot.board.nodes.Keys && (c, u) in bot.board.edges && bot.board.nodes[u].belongsto != bot.nationality
  }

  /** The sum of the strengths of the threatening neighbours of `c`. */
  ghost function ThreatSum(bot: Bot, c: Name): int
  {
    SetSum(bot.board.nodes, Threats(bot, c))
  }

  /**
   The seed score of one supply center, read from the current strengths and
   `belongsto` attributes: a center whose `belongsto` is the nationality
   scores the strength massed against it minus its own, any other its own
   strength.
   */
  function SeedScore(bot: Bot, c: Name): (s: int)
    requires ValidBoard(bot.board) && c in bot.board.nodes
    ensures bot.board.nodes[c].belongsto == bot.nationality ==> s == ThreatSum(bot, c) - bot.board.nodes[c].strength
    ensures bot.board.nodes[c].belongsto != bot.nationality ==> s == bot.board.nodes[c].strength
  {
    var n := bot.board.nodes[c];
    SumOverIsSetSum(bot.board.nodes, bot.board.order, Threats(bot, c));
    assert Threats(bot, c) * (set t | t in bot.board.order) == Threats(bot, c);
    if n.belongsto == bot.nationality then SumOver(bot.board.nodes, bot.board.order, Threats(bot, c)) - n.strength
    // every node carries a strength from construction on, so bot.py's final `else: score = 0` is never taken
    else n.strength
  }

  /** `r` differs from `bot` at most in the score attributes of its nodes. */
  ghost predicate Rescored(bot: Bot, r: Bot)
  {
    && r.nationality == bot.nationality
    && r.owned == bot.owned
    && r.supplyCenters == bot.supplyCenters
    && r.board.order == bot.board.order
    && r.board.edges == bot.board.edges
    && r.board.nodes.Keys == bot.board.nodes.Keys
    && (forall t :: t in r.board.nodes ==> r.board.nodes[t] == bot.board.nodes[t].(score := r.board.nodes[t].score))
  }

  /** A walk over the node list reads only strengths. */
  lemma {:induction false} SumOverIgnoresScores(n1: map<Name, Node>, n2: map<Name, Node>, xs: seq<Name>, keep: set<Name>)
    requires forall t :: t in xs ==> t in n1 && t in n2
    requires forall t :: t in xs ==> n1[t].strength == n2[t].strength
    ensures SumOver(n1, xs, keep) == SumOver(n2, xs, keep)
  {
    if xs != [] {
      SumOverIgnoresScores(n1, n2, xs[1..], keep);
    }
  }

  /** Seed scores do not read scores, so rescoring one center cannot change another's seed score. */
  lemma SeedScoreIgnoresScores(b1: Bot, b2: Bot)
    requires ValidBoard(b1.board) && Rescored(b1, b2)
    ensures ValidBoard(b2.board)
    ensures forall c :: c in b1.board.nodes ==> SeedScore(b1, c) == SeedScore(b2, c)
  {
    assert forall t :: t in b1.board.nodes ==>
      b1.board.nodes[t].strength == b2.board.nodes[t].strength && b1.board.nodes[t].belongsto == b2.board.nodes[t].belongsto;
    forall c | c in b1.board.nodes ensures SeedScore(b1, c) == SeedScore(b2, c) {
      assert Threats(b1, c) == Threats(b2, c);
      SumOverIgnoresScores(b1.board.nodes, b2.board.nodes, b1.board.order, Threats(b1, c));
    }
  }

  /** The `for center in self.supply_centers` loop, one center at a time. */
  function ScoreCenters(bot: Bot, cs: seq<Name>): (r: Bot)
    requires ValidBot(bot)
    requires forall c :: c in cs ==> c in bot.board.nodes
    ensures Rescored(bot, r)
    ensures forall t :: t in cs ==> r.board.nodes[t].score == SeedScore(bot, t)
    ensures forall t :: t in r.board.nodes && t !in cs ==> r.board.nodes[t].score == bot.board.nodes[t].score
    decreases |cs|
  {
    if cs == [] then bot
    else
      var c := cs[0];
      var next := bot.(board := bot.board.(nodes := bot.board.nodes[c := bot.board.nodes[c].(score := SeedScore(bot, c))]));
      SeedScoreIgnoresScores(bot, next);
      ScoreCenters(next, cs[1..])
  }

  /**
   `score_territories`: a supply center whose `belongsto` is the nationality
   scores the strength massed against it minus its own (membership of `owned`
   plays no part); any other supply center scores its strength;
   every other territory keeps its score.
   */
  function ScoreTerritories(bot: Bot): (r: Bot)
    requires ValidBot(bot)
    ensures ValidBot(r)
    ensures Rescored(bot, r)
    ensures forall c :: c in bot.supplyCenters && bot.board.nodes[c].belongsto == bot.nationality ==>
              r.board.nodes[c].score == ThreatSum(bot, c) - bot.board.nodes[c].strength
    ensures forall c :: c in bot.supplyCenters && bot.board.nodes[c].belongsto != bot.nationality ==>
              r.board.nodes[c].score == bot.board.nodes[c].strength
    ensures forall t :: t in bot.board.nodes && t !in bot.supplyCenters ==>
              r.board.nodes[t].score == bot.board.nodes[t].score
  {
    ScoreCenters(bot, bot.supplyCenters)
  }

  /** Scoring twice gives the scores of scoring once: scores depend only on strengths and owners. */
  lemma {:induction false} ScoreTerritoriesIdempotent(bot: Bot)
    requires ValidBot(bot)
    ensures ScoreTerritories(ScoreTerritories(bot)) == ScoreTerritories(bot)
  {
    var r1 := ScoreTerritories(bot);
    var r2 := ScoreTerritories(r1);
    assert r1 == ScoreCenters(bot, bot.supplyCenters);
    assert r2 == ScoreCenters(r1, bot.supplyCenters);
    SeedScoreIgnoresScores(bot, r1);
    forall t | t in r1.board.nodes ensures r2.board.nodes[t] == r1.board.nodes[t] {
      assert r2.board.nodes[t].score == r1.board.nodes[t].score;
    }
    assert r2.board.nodes == r1.board.nodes;
  }

  /**
   England holds London (strength 2), whose neighbours Belgium and Holland
   are French with strengths 3 and 5; France holds Brest, a center with
   strength 4 and no neighbours.
   */
  function ExampleBot(): Bot
  {
    Bot("England", {"lon"}, ["lon", "bre"],
        Board(["lon", "bel", "hol", "bre"],
              map["lon" := Node("London", 1, "England", 0, 2, None),
                  "bel" := Node("Belgium", 0, "France", 0, 3, None),
                  "hol" := Node("Holland", 0, "France", 0, 5, None),
                  "bre" := Node("Brest", 1, "France", 0, 4, None)],
              {("lon", "bel"), ("bel", "lon"), ("lon", "hol"), ("hol", "lon")}))
  }

  lemma ExampleIsValid()
    ensures ValidBot(ExampleBot())
  {
    assert Distinct(ExampleBot().board.order);
  }

  /** London, whose `belongsto` is England, scores 3 + 5 - 2. */
  lemma ExampleHeldCenter()
    ensures ValidBot(ExampleBot())
    ensures ScoreTerritories(ExampleBot()).board.nodes["lon"].score == 6
  {
    ExampleIsValid();
    var bot := ExampleBot();
    var b, t := bot.board, Threats(bot, "lon");
    assert "lon" !in t && "bel" in t && "hol" in t && "bre" !in t;
    assert SumOver(b.nodes, b.order[3..], t) == 0;
    assert SumOver(b.nodes, b.order[2..], t) == 5;
    assert SumOver(b.nodes, b.order[1..], t) == 8;
    assert SeedScore(bot, "lon") == 6;
  }

  /** The enemy center scores its own strength; the non-center keeps its score. */
  lemma ExampleOtherTerritories()
    ensures ValidBot(ExampleBot())
    ensures ScoreTerritories(ExampleBot()).board.nodes["bre"].score == 4
    ensures ScoreTerritories(ExampleBot()).board.nodes["hol"].score == 0
  {
    ExampleIsValid();
  }
}

=== FILE: strength_sums.dfy ===
/**
 Sums of unit strengths. `SetSum` is the reference meaning (the sum over a
 set of territories, in no particular order); `SumOver` is the computation
 the scoring uses, a walk over the board's node list.
 */
module StrengthSums {
  import opened BoardTypes

  ghost function SetSum(nodes: map<Name, Node>, s: set<Name>): int
    requires s <= nodes.Keys
    decreases s
  {
    if s == {} then 0
    else
      var x :| x in s;
      nodes[x].strength + SetSum(nodes, s - {x})
  }

  /** Any element may be taken out first: the set sum does not depend on the order of summation. */
  lemma SetSumRemove(nodes: map<Name, Node>, s: set<Name>, y: Name)
    requires s <= nodes.Keys && y in s
    ensures SetSum(nodes, s) == nodes[y].strength + SetSum(nodes, s - {y})
    decreases s
  {
    var x :| x in s && SetSum(nodes, s) == nodes[x].strength + SetSum(nodes, s - {x});
    if x != y {
      SetSumRemove(nodes, s - {x}, y);
      SetSumRemove(nodes, s - {y}, x);
      assert s - {x} - {y} == s - {y} - {x};
    }
  }

  /** The set sum reads nothing but the strengths of the set's members. */
  lemma {:induction false} SetSumFrame(n1: map<Name, Node>, n2: map<Name, Node>, s: set<Name>)
    requires s <= n1.Keys && s <= n2.Keys
    requires forall t :: t in s ==> n1[t].strength == n2[t].strength
    ensures SetSum(n1, s) == SetSum(n2, s)
    decreases s
  {
    if s != {} {
      var x :| x in s;
      SetSumRemove(n1, s, x);
      SetSumRemove(n2, s, x);
      SetSumFrame(n1, n2, s - {x});
    }
  }

  /** Raising one member's strength by `k` raises the set sum by exactly `k`. */
  lemma SetSumBump(n1: map<Name, Node>, n2: map<Name, Node>, s: set<Name>, c: Name, k: int)
    requires s <= n1.Keys && s <= n2.Keys && c in s
    requires n2[c].strength == n1[c].strength + k
    requires forall t :: t in s && t != c ==> n1[t].strength == n2[t].strength
    ensures SetSum(n2, s) == SetSum(n1, s) + k
  {
    SetSumRemove(n1, s, c);
    SetSumRemove(n2, s, c);
    SetSumFrame(n1, n2, s - {c});
  }

  /** The sum of the strengths of those members of `xs` that lie in `keep`. */
  function SumOver(nodes: map<Name, Node>, xs: seq<Name>, keep: set<Name>): int
    requires forall t :: t in xs ==> t in nodes
  {
    if xs == [] then 0
    else (if xs[0] in keep then nodes[xs[0]].strength else 0) + SumOver(nodes, xs[1..], keep)
  }

  /** Walking a duplicate-free list sums each kept member once: the walk computes the set sum. */
  lemma {:induction false} SumOverIsSetSum(nodes: map<Name, Node>, xs: seq<Name>, keep: set<Name>)
    requires forall t :: t in xs ==> t in nodes
    requires Distinct(xs)
    ensures keep * (set t | t in xs) <= nodes.Keys
    ensures SumOver(nodes, xs, keep) == SetSum(nodes, keep * (set t | t in xs))
  {
    if xs != [] {
      var tl := xs[1..];
      assert Distinct(tl) by {
        forall i, j | 0 <= i < j < |tl| ensures tl[i] != tl[j] {
          assert tl[i] == xs[i + 1] && tl[j] == xs[j + 1];
        }
      }
      SumOverIsSetSum(nodes, tl, keep);
      var rest := keep * (set t | t in tl);
      var all := keep * (set t | t in xs);
      assert xs[0] !in rest by {
        forall i | 0 <= i < |tl| ensures tl[i] != xs[0] {
          assert tl[i] == xs[i + 1];
        }
      }
      assert (set t | t in xs) == {xs[0]} + (set t | t in tl) by {
        assert xs == [xs[0]] + tl;
      }
      if xs[0] in keep {
        assert all - {xs[0]} == rest;
        SetSumRemove(nodes, all, xs[0]);
      } else {
        assert all == rest;
      }
    }
  }
}
